=== FILE: README.md ===
# File pass-through printing, modelled in Dafny

`FilePassthroughActivity` is an Android activity that takes a shared or
opened document and prints it. It does not render the document. It copies
the document into a private working file and reports the page count to the
print framework. When the framework asks for the document, the activity
writes the whole file to the print destination. It then hands a URI for that
file, the MIME type, the job id and the requested pages to the Mopria print
plugin in a broadcast.

This project models that pipeline as pure functions, plus one imperative
loop, and proves what each step promises.

| file | module | what it models |
|---|---|---|
| `wrappers.dfy` | `Wrappers` | `Option` for a Java `null`, `Result` for a thrown exception |
| `javalang.dfy` | `JavaLang` | 32-bit `int` addition with wrap-around, `String.valueOf(int)`, `TextUtils.isEmpty`, `Throwable.toString` of an `IOException` |
| `decimal.dfy` | `Decimal` | decimal digits of natural numbers and their inverse (a proof aid) |
| `pageranges.dfy` | `PageRanges` | `getPageRangeString`, plus a decoder that is only a proof aid |
| `streams.dfy` | `Streams` | `copyStream`, with input and output streams that may throw at any call |
| `files.dfy` | `Files` | `java.io.File` paths and a file system, modelled as a map from path to bytes plus a set of directories |
| `staging.dfy` | `Staging` | `processAction`, `convertToFile`, the MIME fallbacks, `saveWorkFile`, `getPdfPageCount`, `printDocument` |
| `adapter.dfy` | `Adapter` | `LocalPrintDocumentAdapter`: `onLayout`, `onWrite`, `passThrough`, `sendFilePassThroughString`, `onFinish` |

Calls into library code that is not part of this model become inputs:
- `MimeTypeMap` lookups, the content resolver's display-name query, `openInputStream` and `PdfRenderer` are given functions and values of a `Staging.Platform` record.
- `FileProvider.getUriForFile` and the behaviour of the print destination are fields of an `Adapter.Delivery` record.
- The print job id is an opaque optional string.

An input stream is a script of what successive `read` calls return. An
output stream is described by the call on which it throws, if any.

The adapter is a state machine over an immutable `Session`. A session holds:
- the file system;
- the log of callbacks and effects emitted, in order;
- the bytes delivered to the print destination.

**Page-range encoding.** The model keeps the source's 32-bit arithmetic:
- `start + 1` and `end + 1` are computed with wrap-around.
- A range whose `end` is `Integer.MAX_VALUE` and that is not `ALL_PAGES` wraps its one-based end to `Integer.MIN_VALUE`.
- If its `start` is below `Integer.MAX_VALUE`, the loop appends the separating comma but no segment. For example, `[(0,0), (1,MAX)]` encodes as `"1,"`.
- The single page `(MAX, MAX)` wraps both bounds and encodes as the negative number `-2147483648`.

These effects are proved as examples. The clean "one segment per range"
property is stated for ranges that end below `Integer.MAX_VALUE`.

**Quirks of the code that the model keeps:**
- A failed `saveWorkFile` does not abort `processAction`. `finishError` is called, and printing still starts (`Staging.ProcessActionOutcomes`).
- A page count that cannot be read does not refuse the document. `getPdfPageCount` turns `IOException` and `SecurityException` into 0, and the refusing branch of `printDocument` is dead (`Staging.PrintDocumentAlwaysPrints`).
- A failed write is not terminal. `onWriteFinished(ALL_PAGES)` follows `onWriteFailed`, and `onWriteFailed` can be reported twice for one write (`Adapter.FailureThenFinished`, `Adapter.DoubleFailure`).
- A URI that cannot be minted does not abort the handoff cleanly. `grantUriPermission` is called with a null URI, and the thread then throws at `fileUri.toString()` (`Crash`).
- The adapter keeps no phase state. Each callback acts on its own, and `onWrite` never consults cancellation.

Some library calls are plain definitions without contracts of their own:
`JavaLang.IsEmpty` is `TextUtils.isEmpty`, `Files.Child` is
`new File(dir, name)`, `Files.Name` is `getName`, `Files.Parent` is the
directory part of a path, and `Files.Exists` is `exists()`. Their properties
are stated by the members in the table below that use them, such as
`Files.ChildParts` and `Staging.WorkFileLocation`.

## Model

| member | source | states |
|---|---|---|
| JavaLang.AddInt | app/app/src/main/java/org/mopria/FilePassthrough/FilePassthroughActivity.java:486-487 | `int` addition agrees with true addition modulo 2^32 and stays in range. It is exact when the sum fits, and an overflow past `MAX_VALUE` lands 2^32 lower. |
| JavaLang.ValueOf | app/app/src/main/java/org/mopria/FilePassthrough/FilePassthroughActivity.java:494-498 | `String.valueOf` prints a non-negative `int` as its decimal digits, and a negative one as `-` followed by the digits of its magnitude. |
| JavaLang.ErrorText | app/app/src/main/java/org/mopria/FilePassthrough/FilePassthroughActivity.java:420 | `e.toString()` starts with the exception's class name. It is longer than the class name exactly when there is a message, and then `": "` and the message follow. |
| PageRanges.AppendRanges | app/app/src/main/java/org/mopria/FilePassthrough/FilePassthroughActivity.java:481-500 | The `for` loop returns null exactly when the sentinel occurs in the part of the array it has not yet visited. |
| PageRanges.GetPageRangeString | app/app/src/main/java/org/mopria/FilePassthrough/FilePassthroughActivity.java:477-504 | The result is null iff the array is null or empty or contains `ALL_PAGES` anywhere, even after segments were appended. Otherwise, for ranges below `MAX_VALUE`, it is exactly one segment per range, in input order, joined by single commas. |
| PageRanges.JavaSegment | app/app/src/main/java/org/mopria/FilePassthrough/FilePassthroughActivity.java:486-499 | Below the overflow point, the 32-bit loop body produces `s+1` for a single page and `(s+1)-(e+1)` for a span. A range `(s, MAX)` with `s` below `MAX_VALUE` wraps `end + 1` negative, so `start > end` and nothing is appended. |
| PageRanges.AppendRangesJoins | app/app/src/main/java/org/mopria/FilePassthrough/FilePassthroughActivity.java:480-501 | The `StringBuilder` loop, which adds a comma only when the builder is non-empty, builds the comma-join of the segments. There is no leading or trailing comma. |
| PageRanges.EncodeDecode | app/app/src/main/java/org/mopria/FilePassthrough/FilePassthroughActivity.java:477-504 | Every string the encoder produces for encodable ranges reads back as exactly those ranges. |
| PageRanges.EncodingInjective | app/app/src/main/java/org/mopria/FilePassthrough/FilePassthroughActivity.java:477-504 | Two different range lists never encode to the same string, so the encoding loses neither ranges nor order. |
| PageRanges.EncodingExamples | app/app/src/main/java/org/mopria/FilePassthrough/FilePassthroughActivity.java:477-504 | `[(0,0)]` gives `"1"`, `[(0,4)]` gives `"1-5"` and `[(0,0),(2,4)]` gives `"1,3-5"`. Empty and `[ALL_PAGES]` give null. |
| PageRanges.OverflowLeavesTrailingComma | app/app/src/main/java/org/mopria/FilePassthrough/FilePassthroughActivity.java:489-499 | Because the comma is appended before the segment, `[(0,0),(1,MAX)]` encodes as `"1,"`. |
| PageRanges.OverflowSinglePage | app/app/src/main/java/org/mopria/FilePassthrough/FilePassthroughActivity.java:486-494 | The page `(MAX, MAX)` wraps both bounds to `MIN_VALUE` and is printed as `-2147483648`. |
| Streams.EndOfStream | app/app/src/main/java/org/mopria/FilePassthrough/FilePassthroughActivity.java:358 | The loop accepts every read before the first one that returns a count of 0 or less, or throws, and no read after it. |
| Streams.Copy | app/app/src/main/java/org/mopria/FilePassthrough/FilePassthroughActivity.java:354-365 | A run ends without an exception iff no write before the end of the stream throws, the ending read does not throw, and flush, output close and input close all succeed. Unless a write threw, the output holds every chunk read up to the first read that returns 0 or less. In every case the output is a prefix of that. |
| Streams.CopyWritesFit | app/app/src/main/java/org/mopria/FilePassthrough/FilePassthroughActivity.java:356-360 | Every `write` call carries between 1 and 2048 bytes. |
| Streams.CopyClosesInOrder | app/app/src/main/java/org/mopria/FilePassthrough/FilePassthroughActivity.java:361-364 | The input is closed only after all writes, the flush and the output close, in that order. A run without an exception closes both streams. A closed output received the whole stream. |
| Streams.CopyStream | app/app/src/main/java/org/mopria/FilePassthrough/FilePassthroughActivity.java:354-365 | The imperative loop computes exactly the reference run `Copy`. On success the output is every chunk read, the calls end with flush, output close, input close, and every write fits the buffer. |
| Streams.DrainedChunks | app/app/src/main/java/org/mopria/FilePassthrough/FilePassthroughActivity.java:416-418 | Reading the work file in buffers of up to 2048 bytes returns a positive count until the end, and the chunks concatenate to the file. |
| Files.ChildParts | app/app/src/main/java/org/mopria/FilePassthrough/FilePassthroughActivity.java:303-310 | A separator-free, non-empty name placed in a directory comes back from `getName`, and the directory comes back as its parent. |
| Files.Sanitize | app/app/src/main/java/org/mopria/FilePassthrough/FilePassthroughActivity.java:308 | Every `/` becomes `_` and every other character is kept. The length is unchanged and no separator remains. |
| Files.SanitizeIdempotent | app/app/src/main/java/org/mopria/FilePassthrough/FilePassthroughActivity.java:308 | Sanitizing twice equals sanitizing once, and a separator-free name is left unchanged. |
| Files.Mkdir | app/app/src/main/java/org/mopria/FilePassthrough/FilePassthroughActivity.java:304-306 | `mkdir` creates the directory exactly when nothing is at the path and the parent is a directory. Files and other directories are untouched. |
| Files.Delete | app/app/src/main/java/org/mopria/FilePassthrough/FilePassthroughActivity.java:316-318 | After `delete` no regular file is at the path. Every other path keeps its presence and contents. |
| Files.DeleteIdempotent | app/app/src/main/java/org/mopria/FilePassthrough/FilePassthroughActivity.java:514 | Deleting twice has the effect of deleting once. |
| Files.OpenFailure | app/app/src/main/java/org/mopria/FilePassthrough/FilePassthroughActivity.java:416-421 | A failed open throws `FileNotFoundException`, and its message starts with the path, which `onWriteFailed` passes on. |
| Files.OpenOutput | app/app/src/main/java/org/mopria/FilePassthrough/FilePassthroughActivity.java:320 | `new FileOutputStream` succeeds iff the path is not a directory and its parent is one. It then truncates the file to empty; otherwise it throws `FileNotFoundException`. |
| Staging.WorkDir | app/app/src/main/java/org/mopria/FilePassthrough/FilePassthroughActivity.java:303 | The working directory is named `tmp` and sits directly in `getFilesDir()`. |
| Staging.ChooseName | app/app/src/main/java/org/mopria/FilePassthrough/FilePassthroughActivity.java:290-298 | The name is the URI's last path segment. It is replaced by the display name exactly when that segment has no extension and the scheme is `content`. The recorded extension is that of the final name. |
| Staging.ConvertToFile | app/app/src/main/java/org/mopria/FilePassthrough/FilePassthroughActivity.java:289-311 | The work file is `tmp/` plus the sanitized chosen name. A null name throws. A null or empty MIME type falls back to the extension's type, and a non-empty one is kept. No regular file is touched. `tmp` is created when nothing is there and `getFilesDir()` is a directory, and no other directory changes. |
| Staging.WorkFileLocation | app/app/src/main/java/org/mopria/FilePassthrough/FilePassthroughActivity.java:303-310 | The work file lies directly in `getFilesDir()/tmp` under the sanitized name. Its name is non-empty and contains no separator; an empty chosen name makes it `tmp` itself. |
| Staging.ResolveMime | app/app/src/main/java/org/mopria/FilePassthrough/FilePassthroughActivity.java:156-158 | Precedence: a non-empty resolved type wins. Otherwise the recorded extension's type is used, and if that is null or empty, the type of the work file's own extension. |
| Staging.SaveWorkFile | app/app/src/main/java/org/mopria/FilePassthrough/FilePassthroughActivity.java:313-327 | On success the work file holds exactly the bytes the stream delivered, with nothing left over from a previous file. A failing `openInputStream` leaves no work file. In every case the file holds a prefix of the stream, and no other file or directory changes. |
| Staging.GetPdfPageCount | app/app/src/main/java/org/mopria/FilePassthrough/FilePassthroughActivity.java:232-243 | The count is never negative. It is the renderer's count, or 0 for a missing file, a non-PDF, a protected PDF or a failing close. |
| Staging.PrintDocument | app/app/src/main/java/org/mopria/FilePassthrough/FilePassthroughActivity.java:215-226 | A started print has a non-negative page count. Before Lollipop the count stays at its initial 0. |
| Staging.PrintDocumentAlwaysPrints | app/app/src/main/java/org/mopria/FilePassthrough/FilePassthroughActivity.java:218-225 | `printDocument` always reaches `print()`, with the page count from `getPdfPageCount` on Lollipop and later. |
| Staging.ProcessAction | app/app/src/main/java/org/mopria/FilePassthrough/FilePassthroughActivity.java:140-166 | A null resolved type, or a null URI, ends with its error message before anything is staged, and the file system is unchanged. A started print uses the work file `convertToFile` chose under `getFilesDir()/tmp`, names the job after it, and has a non-negative page count. A successful save stages exactly the content's bytes. |
| Staging.ProcessActionOutcomes | app/app/src/main/java/org/mopria/FilePassthrough/FilePassthroughActivity.java:154-165 | With a known type and URI, a null name crashes and every other case reaches `print()`, even when saving failed. The save failure is carried along. |
| Staging.ProcessActionMime | app/app/src/main/java/org/mopria/FilePassthrough/FilePassthroughActivity.java:141-162 | The job's MIME type is the one `ResolveMime` gives for the resolved type, the recorded extension and the job name. |
| Adapter.OnLayout | app/app/src/main/java/org/mopria/FilePassthrough/FilePassthroughActivity.java:380-398 | A cancelled layout emits only `onLayoutCancelled`. Otherwise, with a non-empty job name, it emits `onLayoutFinished` with the name, `CONTENT_TYPE_DOCUMENT`, the page count and `changed = true`. With an empty name the builder throws and the thread crashes. Nothing else changes. |
| Adapter.SendFilePassThroughString | app/app/src/main/java/org/mopria/FilePassthrough/FilePassthroughActivity.java:449-472 | The grant to `org.mopria.printplugin` comes first. Then comes the broadcast with the URI, MIME type, job id and encoded page range, exactly when a URI was minted. Otherwise the thread throws. |
| Adapter.WorkSource | app/app/src/main/java/org/mopria/FilePassthrough/FilePassthroughActivity.java:416-418 | The stream opened on the work file fits the buffer and delivers exactly the file. |
| Adapter.Finally | app/app/src/main/java/org/mopria/FilePassthrough/FilePassthroughActivity.java:419-443 | A caught exception is reported first, and only failures follow it. A second `onWriteFailed` comes exactly when a stream that `copyStream` left open throws on close. It carries that close's `e.toString()`, and the input is closed first. When the copy succeeded and closed both streams, the `finally` closes do nothing and the handoff follows. |
| Adapter.OnWrite | app/app/src/main/java/org/mopria/FilePassthrough/FilePassthroughActivity.java:401-407 | The log only grows. The destination receives what `passThrough` copied. Unless the thread crashed, `onWriteFinished(ALL_PAGES)` is the last callback. |
| Adapter.OnFinish | app/app/src/main/java/org/mopria/FilePassthrough/FilePassthroughActivity.java:512-516 | The activity ends and the work file is gone. Every other regular file keeps its presence and contents, and every other directory stays. |
| Adapter.PassThrough | app/app/src/main/java/org/mopria/FilePassthrough/FilePassthroughActivity.java:409-444 | A work file that is not a regular file reports one `FileNotFoundException`. A failed copy reports the caught exception's `e.toString()` first, then whatever the `finally` closes report, and nothing else. A successful copy delivers the whole file and goes on to the handoff. |
| Adapter.PassThroughBroadcasts | app/app/src/main/java/org/mopria/FilePassthrough/FilePassthroughActivity.java:415-443 | The broadcast happens iff the work file exists, the copy threw nothing and a URI was minted. A failure is reported iff the file is missing or the copy threw. |
| Adapter.WriteIgnoresPageRanges | app/app/src/main/java/org/mopria/FilePassthrough/FilePassthroughActivity.java:401-418 | With a destination that never throws, the whole work file is delivered whatever ranges were requested. |
| Adapter.DeliveryIgnoresPageRanges | app/app/src/main/java/org/mopria/FilePassthrough/FilePassthroughActivity.java:401-418 | Whatever the destination does, two requests for different page ranges deliver the same bytes. |
| Adapter.GrantPrecedesBroadcast | app/app/src/main/java/org/mopria/FilePassthrough/FilePassthroughActivity.java:457-471 | Every broadcast comes right after the read grant for the same URI. It carries the job's MIME type, the job id and the encoded ranges. |
| Adapter.FailureThenFinished | app/app/src/main/java/org/mopria/FilePassthrough/FilePassthroughActivity.java:405-421 | A missing file or failed copy is reported with `onWriteFailed` and still followed by `onWriteFinished(ALL_PAGES)`, and nothing is broadcast. |
| Adapter.DoubleFailure | app/app/src/main/java/org/mopria/FilePassthrough/FilePassthroughActivity.java:419-437 | A destination that throws on write and again on close makes one `onWrite` report two failures, then finish. |
| Adapter.StagedJobLaysOut | app/app/src/main/java/org/mopria/FilePassthrough/FilePassthroughActivity.java:385-397 | With a known type, URI and name, `processAction` reaches `print()`. The job name is never empty, so the document-info builder never throws, and an uncancelled layout describes the job with a non-negative page count. |
| Adapter.FinishTwice | app/app/src/main/java/org/mopria/FilePassthrough/FilePassthroughActivity.java:512-516 | Finishing twice leaves the same files as finishing once. |
| Adapter.CancelledLayoutThenFinish | app/app/src/main/java/org/mopria/FilePassthrough/FilePassthroughActivity.java:385-388 | A layout cancelled and then finished emits `onLayoutCancelled` and the end of the activity. Nothing is broadcast or delivered, and the work file is gone. |
| Adapter.IntactWrite | app/app/src/main/java/org/mopria/FilePassthrough/FilePassthroughActivity.java:405-471 | With an existing work file, a destination that never throws and a minted URI, `onWrite` delivers the whole file. The log then reads grant, broadcast, `onWriteFinished(ALL_PAGES)`. |
| Adapter.DocumentReachesPrinter | app/app/src/main/java/org/mopria/FilePassthrough/FilePassthroughActivity.java:313-321 | In a session that starts after `processAction`, once the save succeeded, the bytes the destination receives are exactly the bytes of the incoming content. The broadcast names that file with the job's MIME type, the job id and the encoded ranges. |

## Left out

- The activity lifecycle is not modelled: `onCreate`, the runtime permission request, `onRequestPermissionsResult` and `onDestroy`. These are UI and OS plumbing. `processAction` starts from the platform's answers.
- Intent dispatch in `getContentUri` and `resolveType` is not modelled; both are given optional values.
- Toasts, the progress dialog and the US-English configuration in `finishError` are left out, because they have no effect on the pipeline. `finishError` is an outcome, and `endActivity` is an `EndActivity` event.
- `AsyncTask` and `PrintManager.print` are left out, because they concern threading and job submission. The job id is an opaque optional input. The model is sequential and does not model `onWrite` racing the assignment of `mPrintJobId`, or an activity already finishing after a save failure.
- `MimeTypeMap`, the `ContentResolver` display-name query with its cursor, `FileProvider.getUriForFile` and `PdfRenderer` are library code whose source is not part of this model. They are given functions or values.
- `java.io.File` path normalisation is modelled only for the empty-name case. Names such as `.` or `..` are not rejected, just as the code does not reject them.
- Reads of the local work file never throw, and they fill the 2048-byte buffer except at the end (`Streams.ChunksOf`). The content stream, by contrast, may return any script of counts and exceptions.
- Files.OpenFailure: the errno text after the path (`EISDIR` for a directory, `ENOENT` otherwise) follows Android's `libcore`, which is not part of this model. The contract promises only the class and the leading path.
- `openInputStream` returning null, and the exception `copyStream` would then throw, is left out.
- Runtime exceptions other than `IOException` and `SecurityException` inside `getPdfPageCount` are left out, and so are exceptions from `new FileOutputStream(descriptor)` on the print destination.
- With a null URI the grant is recorded and the thread then crashes at `toString`. Whether `grantUriPermission` itself throws on null is platform behaviour that is not modelled.
- PageRanges.GetPageRangeString: the "one segment per range, comma-joined" clause is stated only for ranges ending below `Integer.MAX_VALUE`. Above that, the wrap-around is modelled exactly, and its effect is shown by the second ensures of `JavaSegment`, by `OverflowLeavesTrailingComma` and `OverflowSinglePage` instead.
- `PrintDocumentInfo.Builder.setPageCount` also rejects negative counts. That check is not modelled, because the count that reaches it is never negative (`Adapter.StagedJobLaysOut`).
- The `mWorkFile != null` test before `printDocument` is always true, because `convertToFile` either returns a `File` or throws. The model has no branch for it.
- The decoder `PageRanges.Decode` has no counterpart in the code. It serves only to prove that the encoding is reversible and injective.

=== FILE: adapter.dfy ===
/** `LocalPrintDocumentAdapter`: the print framework's callbacks into the
    activity. A session records the callbacks and effects the adapter emits,
    in order, together with the file system and the bytes delivered to the
    print destination. */
module Adapter {
  import opened Wrappers
  import opened JavaLang
  import opened Streams
  import opened Files
  import opened PageRanges
  import opened Staging

  /** `PrintDocumentInfo.CONTENT_TYPE_DOCUMENT`. */
  const ContentTypeDocument: int := 0

  /** Action and package of the handoff to the print service. */
  const PassThroughAction: string := "org.mopria.printplugin.FILE_PASS_THROUGH"
  const PrintPluginPackage: string := "org.mopria.printplugin"

  datatype DocumentInfo = DocumentInfo(name: string, contentType: int, pageCount: int)

  /** The extras of the handoff intent: file URI, MIME type, job id and
      encoded page range. */
  datatype Handoff = Handoff(action: string, fileUri: string, mime: Option<string>, jobId: Option<string>, pageRange: Option<string>)

  /** What the adapter emits: callbacks to the framework, the permission
      grant, the broadcast, an uncaught exception, and the end of the
      activity. */
  datatype Emitted =
    | LayoutCancelled
    | LayoutFinished(info: DocumentInfo, changed: bool)
    | WriteFailed(message: string)
    | WriteFinished(pages: seq<PageRange>)
    | GrantRead(package: string, uri: Option<string>)
    | Broadcast(handoff: Handoff)
    | Crash
    | EndActivity

  /** The platform's answers to the adapter: the print destination's
      behaviour, whether closing the work file's stream throws, and what
      `FileProvider.getUriForFile` returns (None for its
      `IllegalArgumentException`). */
  datatype Delivery = Delivery(destination: Sink, inputCloseError: Option<IoError>, provider: Path -> Option<string>)

  datatype Session = Session(fs: FileSystem, log: seq<Emitted>, delivered: seq<Byte>)

  /** `onLayout`: report cancellation, or describe the document. The
      `PrintDocumentInfo.Builder` throws on an empty name. */
  function OnLayout(job: Job, s: Session, cancelled: bool): (r: Session)
    ensures r.fs == s.fs && r.delivered == s.delivered
    ensures cancelled ==> r.log == s.log + [LayoutCancelled]
    ensures !cancelled && 0 < |job.jobName| ==>
              r.log == s.log + [LayoutFinished(DocumentInfo(job.jobName, ContentTypeDocument, job.totalPages), true)]
    ensures !cancelled && |job.jobName| == 0 ==> r.log == s.log + [Crash]
  {
    if cancelled then s.(log := s.log + [LayoutCancelled])
    else if |job.jobName| == 0 then s.(log := s.log + [Crash])
    else s.(log := s.log + [LayoutFinished(DocumentInfo(job.jobName, ContentTypeDocument, job.totalPages), true)])
  }

  /** What one `passThrough` call emits and delivers. */
  datatype Transfer = Transfer(emitted: seq<Emitted>, delivered: seq<Byte>)

  /** `sendFilePassThroughString`: encode the ranges, ask the file provider
      for a URI, grant the print service read access, then broadcast. A
      null URI makes `toString` throw after the grant. */
  function SendFilePassThroughString(job: Job, jobId: Option<string>, delivery: Delivery, pageRanges: Option<seq<PageRange>>): (e: seq<Emitted>)
    requires pageRanges.Some? ==> AllValid(pageRanges.value)
    ensures |e| == 2 && e[0] == GrantRead(PrintPluginPackage, delivery.provider(job.workFile))
    ensures e[1].Broadcast? <==> delivery.provider(job.workFile).Some?
    ensures e[1].Broadcast? ==> e[1].handoff == Handoff(PassThroughAction, delivery.provider(job.workFile).value,
                                                        job.mime, jobId, GetPageRangeString(pageRanges))
    ensures !e[1].Broadcast? ==> e[1] == Crash
  {
    var pageRange := GetPageRangeString(pageRanges);
    var fileUri := delivery.provider(job.workFile);
    var grant := GrantRead(PrintPluginPackage, fileUri);
    match fileUri
    case None => [grant, Crash]
    case Some(uri) => [grant, Broadcast(Handoff(PassThroughAction, uri, job.mime, jobId, pageRange))]
  }

  /** The stream `passThrough` opens on the work file: read in full buffers. */
  function WorkSource(data: seq<Byte>, delivery: Delivery): (src: Source)
    ensures FitsBuffer(src.script)
    ensures Drained(src.script) == data
  {
    DrainedChunks(data);
    Source(ChunksOf(data), delivery.inputCloseError)
  }

  /** The copy `passThrough` performs on the work file's current contents. */
  function CopyOfWorkFile(job: Job, delivery: Delivery, fs: FileSystem): (c: CopyResult)
    requires job.workFile in fs.files
    ensures !WriteFails(WorkSource(fs.files[job.workFile], delivery), delivery.destination) ==>
              c.written == fs.files[job.workFile]
  {
    Copy(WorkSource(fs.files[job.workFile], delivery), delivery.destination)
  }

  /** The `catch` and `finally` blocks of `passThrough` after `copyStream`
      returned `copy`: report a caught exception, close whichever stream is
      still open (a throwing close reports and returns), and only when
      nothing threw go on to `sent`, the handoff. */
  function Finally(copy: CopyResult, delivery: Delivery, sent: seq<Emitted>): (e: seq<Emitted>)
    ensures copy.failure.Some? ==>
              && 0 < |e| <= 2 && e[0] == WriteFailed(ErrorText(copy.failure.value))
              && forall k :: 0 <= k < |e| ==> e[k].WriteFailed?
    ensures copy.failure.Some? ==>
              (|e| == 2 <==> (CloseInput !in copy.events && delivery.inputCloseError.Some?) ||
                             (CloseOutput !in copy.events && delivery.destination.closeError.Some?))
    ensures copy.failure.Some? && CloseInput !in copy.events && delivery.inputCloseError.Some? ==>
              |e| == 2 && e[1] == WriteFailed(ErrorText(delivery.inputCloseError.value))
    ensures copy.failure.Some? && !(CloseInput !in copy.events && delivery.inputCloseError.Some?) &&
            CloseOutput !in copy.events && delivery.destination.closeError.Some? ==>
              |e| == 2 && e[1] == WriteFailed(ErrorText(delivery.destination.closeError.value))
    ensures copy.failure.None? && CloseInput in copy.events && CloseOutput in copy.events ==> e == sent
  {
    var caught := if copy.failure.Some? then [WriteFailed(ErrorText(copy.failure.value))] else [];
    if CloseInput !in copy.events && delivery.inputCloseError.Some? then
      caught + [WriteFailed(ErrorText(delivery.inputCloseError.value))]
    else if CloseOutput !in copy.events && delivery.destination.closeError.Some? then
      caught + [WriteFailed(ErrorText(delivery.destination.closeError.value))]
    else if copy.failure.Some? then caught
    else sent
  }

  /** `passThrough`: copy the whole work file to the destination, then run
      the `catch` and `finally` blocks; the handoff is sent only when
      nothing threw. Opening a work file that is not a regular file throws
      at once. It ends in one of three ways: the open failed, the copy
      threw, or the handoff is sent. */
  function PassThrough(job: Job, jobId: Option<string>, delivery: Delivery, fs: FileSystem, pageRanges: Option<seq<PageRange>>): (t: Transfer)
    requires pageRanges.Some? ==> AllValid(pageRanges.value)
    ensures job.workFile !in fs.files ==>
              t == Transfer([WriteFailed(ErrorText(OpenFailure(fs, job.workFile)))], [])
    ensures job.workFile in fs.files && CopyOfWorkFile(job, delivery, fs).failure.Some? ==>
              && 0 < |t.emitted| <= 2
              && (forall k :: 0 <= k < |t.emitted| ==> t.emitted[k].WriteFailed?)
              && t.emitted[0] == WriteFailed(ErrorText(CopyOfWorkFile(job, delivery, fs).failure.value))
              && t.emitted == Finally(CopyOfWorkFile(job, delivery, fs), delivery, [])
              && t.delivered == CopyOfWorkFile(job, delivery, fs).written
    ensures job.workFile in fs.files && CopyOfWorkFile(job, delivery, fs).failure.None? ==>
              t == Transfer(SendFilePassThroughString(job, jobId, delivery, pageRanges), fs.files[job.workFile])
  {
    if job.workFile !in fs.files then
      Transfer([WriteFailed(ErrorText(OpenFailure(fs, job.workFile)))], [])
    else
      var copy := CopyOfWorkFile(job, delivery, fs);
      CopyClosesInOrder(WorkSource(fs.files[job.workFile], delivery), delivery.destination);
      Transfer(Finally(copy, delivery, SendFilePassThroughString(job, jobId, delivery, pageRanges)), copy.written)
  }

  /** `onWrite`: pass the file through, then report `ALL_PAGES` as written
      whatever happened, unless an exception escaped. Cancellation is never
      consulted. */
  function OnWrite(job: Job, jobId: Option<string>, delivery: Delivery, s: Session, pageRanges: Option<seq<PageRange>>): (r: Session)
    requires pageRanges.Some? ==> AllValid(pageRanges.value)
    ensures r.fs == s.fs
    ensures |s.log| < |r.log| && r.log[..|s.log|] == s.log
    ensures r.delivered == s.delivered + PassThrough(job, jobId, delivery, s.fs, pageRanges).delivered
    ensures Crash !in r.log[|s.log|..] ==> r.log[|r.log| - 1] == WriteFinished([AllPages])
  {
    var t := PassThrough(job, jobId, delivery, s.fs, pageRanges);
    var emitted := if Crash in t.emitted then t.emitted else t.emitted + [WriteFinished([AllPages])];
    assert emitted != [] by {
      if Crash in t.emitted { assert |t.emitted| > 0; }
    }
    Session(s.fs, s.log + emitted, s.delivered + t.delivered)
  }

  /** `onFinish`: end the activity and delete the work file, ignoring
      whether that succeeded. */
  function OnFinish(job: Job, s: Session): (r: Session)
    ensures job.workFile !in r.fs.files
    ensures forall q :: q != job.workFile ==> (q in r.fs.files <==> q in s.fs.files)
    ensures forall q :: q != job.workFile && q in r.fs.files ==> r.fs.files[q] == s.fs.files[q]
    ensures forall q :: q != job.workFile ==> (q in r.fs.dirs <==> q in s.fs.dirs)
    ensures r.log == s.log + [EndActivity] && r.delivered == s.delivered
  {
    Session(Delete(s.fs, job.workFile), s.log + [EndActivity], s.delivered)
  }

  predicate Broadcasts(e: seq<Emitted>) {
    exists k :: 0 <= k < |e| && e[k].Broadcast?
  }

  predicate ReportsFailure(e: seq<Emitted>) {
    exists k :: 0 <= k < |e| && e[k].WriteFailed?
  }

  /** The handoff is broadcast exactly when the work file exists, the copy
      to the destination completed without an exception, and the file
      provider produced a URI; a failure is reported exactly when the file
      is missing or the copy threw. */
  lemma PassThroughBroadcasts(job: Job, jobId: Option<string>, delivery: Delivery, fs: FileSystem, pageRanges: Option<seq<PageRange>>)
    requires pageRanges.Some? ==> AllValid(pageRanges.value)
    ensures var t := PassThrough(job, jobId, delivery, fs, pageRanges);
            Broadcasts(t.emitted) <==>
              job.workFile in fs.files && CopyOfWorkFile(job, delivery, fs).failure.None? && delivery.provider(job.workFile).Some?
    ensures var t := PassThrough(job, jobId, delivery, fs, pageRanges);
            ReportsFailure(t.emitted) <==>
              job.workFile !in fs.files || CopyOfWorkFile(job, delivery, fs).failure.Some?
  {
    var t := PassThrough(job, jobId, delivery, fs, pageRanges);
    if job.workFile !in fs.files {
      assert t.emitted[0].WriteFailed?;
    } else if CopyOfWorkFile(job, delivery, fs).failure.Some? {
      assert t.emitted[0].WriteFailed?;
    } else {
      assert !t.emitted[0].WriteFailed? && !t.emitted[1].WriteFailed?;
      if delivery.provider(job.workFile).Some? {
        assert t.emitted[1].Broadcast?;
      }
    }
  }

  /** `onWrite` ships the whole work file whatever `pageRanges` asks for:
      with a destination that never throws, the delivered bytes are the
      file. */
  lemma WriteIgnoresPageRanges(job: Job, jobId: Option<string>, delivery: Delivery, s: Session, pageRanges: Option<seq<PageRange>>)
    requires pageRanges.Some? ==> AllValid(pageRanges.value)
    requires job.workFile in s.fs.files && delivery.destination == ReliableSink
    ensures OnWrite(job, jobId, delivery, s, pageRanges).delivered == s.delivered + s.fs.files[job.workFile]
  {
    DrainedChunks(s.fs.files[job.workFile]);
  }

  /** Whatever the destination does, two requests for different page ranges
      deliver the same bytes: the ranges only reach the handoff. */
  lemma DeliveryIgnoresPageRanges(job: Job, jobId: Option<string>, delivery: Delivery, s: Session,
                                  a: Option<seq<PageRange>>, b: Option<seq<PageRange>>)
    requires a.Some? ==> AllValid(a.value)
    requires b.Some? ==> AllValid(b.value)
    ensures OnWrite(job, jobId, delivery, s, a).delivered == OnWrite(job, jobId, delivery, s, b).delivered
  {
  }

  /** The permission grant to the print service comes immediately before the
      broadcast, for the very URI the broadcast carries, and the broadcast
      carries the work file's MIME type, the job id and the encoded ranges. */
  lemma GrantPrecedesBroadcast(job: Job, jobId: Option<string>, delivery: Delivery, s: Session, pageRanges: Option<seq<PageRange>>, k: nat)
    requires pageRanges.Some? ==> AllValid(pageRanges.value)
    requires var r := OnWrite(job, jobId, delivery, s, pageRanges); |s.log| <= k < |r.log| && r.log[k].Broadcast?
    ensures var r := OnWrite(job, jobId, delivery, s, pageRanges);
            && |s.log| < k
            && r.log[k - 1] == GrantRead(PrintPluginPackage, Some(r.log[k].handoff.fileUri))
            && r.log[k].handoff == Handoff(PassThroughAction, r.log[k].handoff.fileUri, job.mime, jobId, GetPageRangeString(pageRanges))
  {
    var t := PassThrough(job, jobId, delivery, s.fs, pageRanges);
    var r := OnWrite(job, jobId, delivery, s, pageRanges);
    assert r.log[k] == r.log[|s.log|..][k - |s.log|];
    PassThroughBroadcasts(job, jobId, delivery, s.fs, pageRanges);
    assert Broadcasts(t.emitted) by {
      assert Crash !in t.emitted ==> r.log[|s.log|..] == t.emitted + [WriteFinished([AllPages])];
      assert Crash in t.emitted ==> r.log[|s.log|..] == t.emitted;
      assert t.emitted[k - |s.log|].Broadcast?;
    }
    assert t.emitted == SendFilePassThroughString(job, jobId, delivery, pageRanges);
  }

  /** A failed write is still followed by `onWriteFinished(ALL_PAGES)`: the
      session records the failure, then the completion, and no broadcast. */
  lemma FailureThenFinished(job: Job, jobId: Option<string>, delivery: Delivery, s: Session, pageRanges: Option<seq<PageRange>>)
    requires pageRanges.Some? ==> AllValid(pageRanges.value)
    requires job.workFile !in s.fs.files || CopyOfWorkFile(job, delivery, s.fs).failure.Some?
    ensures var e := OnWrite(job, jobId, delivery, s, pageRanges).log[|s.log|..];
            && 2 <= |e| <= 3
            && e[0].WriteFailed?
            && e[|e| - 1] == WriteFinished([AllPages])
            && !Broadcasts(e)
  {
    var t := PassThrough(job, jobId, delivery, s.fs, pageRanges);
    assert forall k :: 0 <= k < |t.emitted| ==> t.emitted[k].WriteFailed?;
    assert Crash !in t.emitted;
    var e := OnWrite(job, jobId, delivery, s, pageRanges).log[|s.log|..];
    assert e == t.emitted + [WriteFinished([AllPages])];
    assert forall k :: 0 <= k < |e| ==> !e[k].Broadcast?;
  }

  /** `onWriteFailed` can be reported twice for one write: the destination
      throws on its first write, and again when the `finally` block closes
      it. */
  lemma DoubleFailure(job: Job, jobId: Option<string>, s: Session, provider: Path -> Option<string>, e1: IoError, e2: IoError)
    requires s.fs.files == map[job.workFile := [1 as Byte]]
    ensures var delivery := Delivery(Sink(Some(WriteFault(0, e1)), None, Some(e2)), None, provider);
            OnWrite(job, jobId, delivery, s, None).log[|s.log|..] ==
              [WriteFailed(ErrorText(e1)), WriteFailed(ErrorText(e2)), WriteFinished([AllPages])]
  {
    var delivery := Delivery(Sink(Some(WriteFault(0, e1)), None, Some(e2)), None, provider);
    var data: seq<Byte> := [1 as Byte];
    assert ChunksOf(data) == [Bytes(data)];
    assert EndOfStream(ChunksOf(data)) == 1;
    var copy := CopyOfWorkFile(job, delivery, s.fs);
    assert copy.events == [Write(1)];
    assert copy.failure == Some(e1);
  }

  /** A job staged by `processAction` always has a non-empty name, so
      `onLayout` without cancellation describes it and never throws. */
  lemma StagedJobLaysOut(platform: Platform, fs: FileSystem, s: Session)
    requires platform.content.Success? ==> FitsBuffer(platform.content.value.script)
    requires platform.resolvedType.Some? && platform.contentUri.Some?
    requires ChooseName(platform, platform.contentUri.value).0.Some?
    ensures var r := ProcessAction(platform, fs);
            && r.outcome.Printing?
            && 0 < |r.outcome.job.jobName|
            && 0 <= r.outcome.job.totalPages
            && OnLayout(r.outcome.job, s, false).log ==
                 s.log + [LayoutFinished(DocumentInfo(r.outcome.job.jobName, ContentTypeDocument, r.outcome.job.totalPages), true)]
  {
    ProcessActionOutcomes(platform, fs);
    WorkFileLocation(platform, platform.contentUri.value, platform.resolvedType, fs);
  }

  /** Deleting on `onFinish` is idempotent: finishing twice leaves the same
      files as finishing once. */
  lemma FinishTwice(job: Job, s: Session)
    requires Consistent(s.fs)
    ensures OnFinish(job, OnFinish(job, s)).fs == OnFinish(job, s).fs
  {
    DeleteIdempotent(s.fs, job.workFile);
  }

  /** A print cancelled at layout and then finished emits no broadcast,
      delivers nothing and removes the work file. */
  lemma CancelledLayoutThenFinish(job: Job, s: Session)
    ensures var r := OnFinish(job, OnLayout(job, s, true));
            && r.log == s.log + [LayoutCancelled, EndActivity]
            && !Broadcasts(r.log[|s.log|..])
            && r.delivered == s.delivered
            && job.workFile !in r.fs.files
  {
    var r := OnFinish(job, OnLayout(job, s, true));
    assert r.log[|s.log|..] == [LayoutCancelled, EndActivity];
  }

  /** A write of an existing work file to a destination that never throws,
      with a file provider that answers: the whole file is delivered, the
      grant and the broadcast follow, and `onWriteFinished` closes. */
  lemma IntactWrite(job: Job, jobId: Option<string>, delivery: Delivery, s: Session, pageRanges: Option<seq<PageRange>>)
    requires pageRanges.Some? ==> AllValid(pageRanges.value)
    requires job.workFile in s.fs.files
    requires delivery.destination == ReliableSink && delivery.inputCloseError.None?
    requires delivery.provider(job.workFile).Some?
    ensures var r := OnWrite(job, jobId, delivery, s, pageRanges);
            && r.delivered == s.delivered + s.fs.files[job.workFile]
            && r.log[|s.log|..] == [GrantRead(PrintPluginPackage, delivery.provider(job.workFile)),
                                    Broadcast(Handoff(PassThroughAction, delivery.provider(job.workFile).value,
                                                      job.mime, jobId, GetPageRangeString(pageRanges))),
                                    WriteFinished([AllPages])]
  {
    var data := s.fs.files[job.workFile];
    DrainedChunks(data);
    var source := WorkSource(data, delivery);
    assert !WriteFails(source, delivery.destination) && !ReadFails(source);
    assert CopyOfWorkFile(job, delivery, s.fs).failure.None?;
    var sent := SendFilePassThroughString(job, jobId, delivery, pageRanges);
    assert PassThrough(job, jobId, delivery, s.fs, pageRanges) == Transfer(sent, data);
    assert sent == [GrantRead(PrintPluginPackage, delivery.provider(job.workFile)),
                    Broadcast(Handoff(PassThroughAction, delivery.provider(job.workFile).value,
                                      job.mime, jobId, GetPageRangeString(pageRanges)))];
    assert Crash !in sent;
  }

  /** From the incoming document to the print service: when the staged copy
      was saved without an exception, the destination never throws and the
      file provider answers, the destination receives exactly the bytes of
      the incoming content, and the print service is told about that file
      with the job's MIME type, the job id and the encoded ranges. */
  lemma DocumentReachesPrinter(platform: Platform, fs: FileSystem, jobId: Option<string>, delivery: Delivery,
                               pageRanges: Option<seq<PageRange>>)
    requires platform.content.Success? ==> FitsBuffer(platform.content.value.script)
    requires pageRanges.Some? ==> AllValid(pageRanges.value)
    ensures var run := ProcessAction(platform, fs);
            var s := Session(run.fs, [], []);
            run.outcome.Printing? && run.outcome.saveFailure.None? &&
            delivery.destination == ReliableSink && delivery.inputCloseError.None? &&
            delivery.provider(run.outcome.job.workFile).Some?
            ==>
            var job := run.outcome.job;
            var r := OnWrite(job, jobId, delivery, s, pageRanges);
            && r.delivered == Drained(platform.content.value.script)
            && r.log == [GrantRead(PrintPluginPackage, delivery.provider(job.workFile)),
                         Broadcast(Handoff(PassThroughAction, delivery.provider(job.workFile).value,
                                           job.mime, jobId, GetPageRangeString(pageRanges))),
                         WriteFinished([AllPages])]
  {
    var run := ProcessAction(platform, fs);
    var s := Session(run.fs, [], []);
    if run.outcome.Printing? && run.outcome.saveFailure.None? &&
       delivery.destination == ReliableSink && delivery.inputCloseError.None? &&
       delivery.provider(run.outcome.job.workFile).Some? {
      assert run.fs.files[run.outcome.job.workFile] == Drained(platform.content.value.script);
      IntactWrite(run.outcome.job, jobId, delivery, s, pageRanges);
    }
  }
}

=== FILE: decimal.dfy ===
/** Decimal rendering of natural numbers, as `String.valueOf` prints a
    non-negative `int`, and its inverse, used to read encoded page ranges back. */
module Decimal {

  predicate IsDigit(c: char) {
    '0' <= c <= '9'
  }

  predicate AllDigits(s: string) {
    forall i :: 0 <= i < |s| ==> IsDigit(s[i])
  }

  function DigitChar(d: nat): (c: char)
    requires d < 10
    ensures IsDigit(c)
  {
    ('0' as int + d) as char
  }

  /** The value of a digit character; other characters never reach it in a
      well-formed number and count as 0. */
  function DigitValue(c: char): (d: nat)
    ensures d < 10
  {
    if IsDigit(c) then (c as int - '0' as int) as nat else 0
  }

  lemma DigitRoundTrip(d: nat)
    requires d < 10
    ensures DigitValue(DigitChar(d)) == d
  {
  }

  /** Decimal digits of `n`, most significant first, without leading zeros. */
  function NatToString(n: nat): (s: string)
    ensures 0 < |s|
    ensures AllDigits(s)
    ensures n < 10 <==> |s| == 1
    decreases n
  {
    if n < 10 then [DigitChar(n)] else NatToString(n / 10) + [DigitChar(n % 10)]
  }

  /** The value of a string of decimal digits (an empty string reads as 0). */
  function ParseNat(s: string): nat {
    if |s| == 0 then 0 else ParseNat(s[..|s| - 1]) * 10 + DigitValue(s[|s| - 1])
  }

  /** Reading back what `NatToString` printed yields the number again. */
  lemma {:induction false} ParseNatToString(n: nat)
    ensures ParseNat(NatToString(n)) == n
    decreases n
  {
    var s := NatToString(n);
    if n < 10 {
      DigitRoundTrip(n);
    } else {
      ParseNatToString(n / 10);
      assert s[..|s| - 1] == NatToString(n / 10);
      DigitRoundTrip(n % 10);
    }
  }

  /** `NatToString` is injective. */
  lemma NatToStringInjective(m: nat, n: nat)
    requires NatToString(m) == NatToString(n)
    ensures m == n
  {
    ParseNatToString(m);
    ParseNatToString(n);
  }
}

=== FILE: files.dfy ===
/** The part of `java.io.File` and of the device's file system that staging
    and the print adapter touch: paths built from a directory and a name,
    `getName`, `exists`, `mkdir`, `delete`, and opening a file for writing.
    The file system is a map from path to contents plus a set of
    directories. */
module Files {
  import opened Wrappers
  import opened JavaLang

  type Path = string

  /** `File.separator` on Android. */
  const Separator: char := '/'

  datatype FileSystem = FileSystem(files: map<Path, seq<Byte>>, dirs: set<Path>)

  /** No path is both a regular file and a directory. */
  predicate Consistent(fs: FileSystem) {
    forall p :: p in fs.files ==> p !in fs.dirs
  }

  /** Position of the last `c` in `s`, or -1. */
  function LastIndexOf(s: string, c: char): (i: int)
    ensures -1 <= i < |s|
    ensures 0 <= i ==> s[i] == c
    ensures forall k :: i < k < |s| ==> s[k] != c
  {
    if |s| == 0 then -1
    else if s[|s| - 1] == c then |s| - 1
    else LastIndexOf(s[..|s| - 1], c)
  }

  /** `new File(dir, name)`: an empty name denotes the directory itself. */
  function Child(dir: Path, name: string): Path {
    if |name| == 0 then dir else dir + [Separator] + name
  }

  /** `File.getName`: what follows the last separator. */
  function Name(p: Path): string {
    p[LastIndexOf(p, Separator) + 1..]
  }

  /** The directory part of a path: what precedes the last separator. */
  function Parent(p: Path): Path {
    var i := LastIndexOf(p, Separator);
    if i < 0 then "" else p[..i]
  }

  /** A separator-free, non-empty name placed in a directory is found again
      by `Name`, and the directory by `Parent`. */
  lemma ChildParts(dir: Path, name: string)
    requires 0 < |name| && Separator !in name
    ensures Name(Child(dir, name)) == name
    ensures Parent(Child(dir, name)) == dir
  {
    var p := Child(dir, name);
    assert p[|dir|] == Separator;
    assert forall k :: |dir| < k < |p| ==> p[k] == name[k - |dir| - 1];
    assert LastIndexOf(p, Separator) == |dir|;
  }

  /** `String.replace(File.separator, "_")` as used on the staged name. */
  function Sanitize(name: string): (r: string)
    ensures |r| == |name|
    ensures Separator !in r
    ensures forall i :: 0 <= i < |name| ==> r[i] == (if name[i] == Separator then '_' else name[i])
  {
    if |name| == 0 then []
    else
      var rest := Sanitize(name[1..]);
      assert forall i :: 1 <= i < |name| ==> name[i] == name[1..][i - 1];
      [if name[0] == Separator then '_' else name[0]] + rest
  }

  /** Sanitizing twice changes nothing more, and a name without a separator
      is kept as it is. */
  lemma SanitizeIdempotent(name: string)
    ensures Sanitize(Sanitize(name)) == Sanitize(name)
    ensures Separator !in name ==> Sanitize(name) == name
  {
  }

  predicate Exists(fs: FileSystem, p: Path) {
    p in fs.files || p in fs.dirs
  }

  /** `File.mkdir`: creates the directory when nothing is there yet and its
      parent is a directory; otherwise does nothing. */
  function Mkdir(fs: FileSystem, p: Path): (r: FileSystem)
    ensures r.files == fs.files
    ensures p in r.dirs <==> p in fs.dirs || (!Exists(fs, p) && Parent(p) in fs.dirs)
    ensures forall q :: q != p ==> (q in r.dirs <==> q in fs.dirs)
    ensures Consistent(fs) ==> Consistent(r)
  {
    if !Exists(fs, p) && Parent(p) in fs.dirs then fs.(dirs := fs.dirs + {p}) else fs
  }

  /** Whether anything lives directly inside directory `d`. */
  predicate HasEntries(fs: FileSystem, d: Path) {
    (exists q :: q in fs.files && Parent(q) == d) || (exists q :: q in fs.dirs && Parent(q) == d)
  }

  /** `File.delete`: removes a regular file, or an empty directory; its
      boolean result is ignored by every caller. */
  function Delete(fs: FileSystem, p: Path): (r: FileSystem)
    ensures p !in r.files
    ensures forall q :: q != p ==> (q in r.files <==> q in fs.files) && (q in r.files ==> r.files[q] == fs.files[q])
    ensures forall q :: q != p ==> (q in r.dirs <==> q in fs.dirs)
    ensures Consistent(fs) ==> Consistent(r)
  {
    if p in fs.files then fs.(files := fs.files - {p})
    else if p in fs.dirs && !HasEntries(fs, p) then fs.(dirs := fs.dirs - {p})
    else fs
  }

  /** Deleting the same path twice has the effect of deleting it once. */
  lemma DeleteIdempotent(fs: FileSystem, p: Path)
    requires Consistent(fs)
    ensures Delete(Delete(fs, p), p) == Delete(fs, p)
  {
  }

  /** The `FileNotFoundException` an open of `p` raises: the detail names
      the path, then the errno, `EISDIR` for a directory and `ENOENT`
      otherwise. */
  function OpenFailure(fs: FileSystem, p: Path): (e: IoError)
    ensures e.className == FileNotFoundClass
    ensures e.message.Some? && p <= e.message.value
  {
    var errno := if p in fs.dirs then "EISDIR (Is a directory)" else "ENOENT (No such file or directory)";
    IoError(FileNotFoundClass, Some(p + ": open failed: " + errno))
  }

  /** `new FileOutputStream(p)`: creates or truncates a regular file in an
      existing directory; a directory at `p` or a missing parent throws. */
  function OpenOutput(fs: FileSystem, p: Path): (r: Result<FileSystem, IoError>)
    ensures r.Success? <==> p !in fs.dirs && Parent(p) in fs.dirs
    ensures r.Success? ==> r.value.files == fs.files[p := []] && r.value.dirs == fs.dirs
    ensures r.Failure? ==> r.error.className == FileNotFoundClass
  {
    if p in fs.dirs || Parent(p) !in fs.dirs then Failure(OpenFailure(fs, p))
    else Success(fs.(files := fs.files[p := []]))
  }

  /** The contents of regular file `p` after the bytes `data` were written
      to a freshly opened output stream on it. */
  function Store(fs: FileSystem, p: Path, data: seq<Byte>): (r: FileSystem)
    requires p in fs.files
    ensures r.files == fs.files[p := data] && r.dirs == fs.dirs
  {
    fs.(files := fs.files[p := data])
  }
}

=== FILE: javalang.dfy ===
/** The few pieces of Java's runtime library the activity relies on, with
    Java's semantics written out: 32-bit `int` addition wraps around,
    `String.valueOf(int)` prints a sign for negatives, `TextUtils.isEmpty`
    treats null like the empty string, `Throwable.toString` starts with the
    exception's class name. */
module JavaLang {
  import opened Wrappers
  import Decimal

  const IntMin: int := -0x8000_0000
  const IntMax: int := 0x7fff_ffff
  const IntRange: int := 0x1_0000_0000

  predicate IsInt(x: int) {
    IntMin <= x <= IntMax
  }

  /** `a + b` evaluated on Java `int`s: the mathematical sum brought back into
      range modulo 2^32. */
  function AddInt(a: int, b: int): (r: int)
    requires IsInt(a) && IsInt(b)
    ensures IsInt(r)
    ensures (r - (a + b)) % IntRange == 0
    ensures IsInt(a + b) ==> r == a + b
    ensures a + b > IntMax ==> r == a + b - IntRange
  {
    (a + b - IntMin) % IntRange + IntMin
  }

  /** `String.valueOf(i)` for an `int`. */
  function ValueOf(i: int): (s: string)
    ensures 0 < |s|
    ensures i >= 0 ==> s == Decimal.NatToString(i)
    ensures i < 0 ==> s[0] == '-' && s[1..] == Decimal.NatToString(-i)
  {
    if i < 0 then "-" + Decimal.NatToString(-i) else Decimal.NatToString(i)
  }

  /** `TextUtils.isEmpty(s)`: null or of length zero. */
  predicate IsEmpty(s: Option<string>) {
    s.None? || |s.value| == 0
  }

  /** A Java `byte`, as raw bits. */
  type Byte = bv8

  /** A thrown `IOException` (or subclass), identified by its class name and
      optional detail message. */
  datatype IoError = IoError(className: ClassName, message: Option<string>)

  /** A Java class name is never empty. */
  type ClassName = s: string | 0 < |s| witness "java.io.IOException"

  const FileNotFoundClass: ClassName := "java.io.FileNotFoundException"

  /** `Throwable.toString()`: the class name, then `": "` and the message when
      there is one. */
  function ErrorText(e: IoError): (s: string)
    ensures 0 < |s|
    ensures |e.className| <= |s| && s[..|e.className|] == e.className
    ensures e.message.None? <==> |s| == |e.className|
    ensures e.message.Some? ==> s[|e.className|..] == ": " + e.message.value
  {
    match e.message
    case None => e.className
    case Some(m) => e.className + ": " + m
  }
}

=== FILE: pageranges.dfy ===
/** The page-range string handed to the print plugin (`getPageRangeString`):
    zero-based inclusive ranges become one-based numbers, a single page as `n`,
    a span as `lo-hi`, joined by commas in the order given; "all pages" is
    expressed by sending no string at all. */
module PageRanges {
  import opened Wrappers
  import opened JavaLang
  import Decimal

  /** `android.print.PageRange`: zero-based, inclusive bounds. */
  datatype PageRange = PageRange(start: int, end: int)

  /** `PageRange.ALL_PAGES`. */
  const AllPages: PageRange := PageRange(0, IntMax)

  /** What the platform's `PageRange` constructor enforces of every instance. */
  predicate Valid(r: PageRange) {
    0 <= r.start <= r.end <= IntMax
  }

  predicate AllValid(rs: seq<PageRange>) {
    forall i :: 0 <= i < |rs| ==> Valid(rs[i])
  }

  /** A range whose one-based end `end + 1` still fits in an `int`; every
      range except the sentinel and those ending at `Integer.MAX_VALUE`. */
  predicate Encodable(r: PageRange) {
    Valid(r) && r.end < IntMax
  }

  predicate AllEncodable(rs: seq<PageRange>) {
    forall i :: 0 <= i < |rs| ==> Encodable(rs[i])
  }

  /** The loop body as written: `start + 1` and `end + 1` are computed in
      32-bit arithmetic, and nothing is appended when `start > end`. */
  function JavaSegment(r: PageRange): (s: string)
    requires Valid(r)
    ensures Encodable(r) ==> s == Segment(r)
    ensures r.end == IntMax && r.start < IntMax ==> s == ""
  {
    var start := AddInt(r.start, 1);
    var end := AddInt(r.end, 1);
    assert Encodable(r) ==> start == r.start + 1 && end == r.end + 1;
    if start == end then ValueOf(start)
    else if start < end then ValueOf(start) + "-" + ValueOf(end)
    else ""
  }

  /** The `for` loop from the range at index `i` on, with the partially built
      string `builder`; it gives up with null as soon as it meets the sentinel. */
  function AppendRanges(rs: seq<PageRange>, i: nat, builder: string): (r: Option<string>)
    requires AllValid(rs) && i <= |rs|
    ensures r.None? <==> AllPages in rs[i..]
    decreases |rs| - i
  {
    if i == |rs| then Some(builder)
    else
      assert rs[i..] == [rs[i]] + rs[i + 1..];
      if rs[i] == AllPages then None
      else
        var separated := if |builder| > 0 then builder + "," else builder;
        AppendRanges(rs, i + 1, separated + JavaSegment(rs[i]))
  }

  /** `getPageRangeString`; `None` for the argument stands for a null array.
      Null comes back exactly for a null or empty array and for an array that
      contains the sentinel anywhere, even after segments were appended. For
      ranges that do not reach `Integer.MAX_VALUE` the result is one segment
      per range, in order, separated by single commas. */
  function GetPageRangeString(pageRanges: Option<seq<PageRange>>): (r: Option<string>)
    requires pageRanges.Some? ==> AllValid(pageRanges.value)
    ensures r.None? <==> (pageRanges.None? || |pageRanges.value| == 0 || AllPages in pageRanges.value)
    ensures r.Some? && AllEncodable(pageRanges.value) ==> r.value == Join(Segments(pageRanges.value))
  {
    match pageRanges
    case None => None
    case Some(rs) =>
      if |rs| > 0 then
        assert rs[0..] == rs;
        EncodableRangesJoin(rs);
        AppendRanges(rs, 0, "")
      else None
  }

  /** The intended text of one range: `start+1` alone for a single page,
      otherwise `start+1` and `end+1` separated by a dash. */
  function Segment(r: PageRange): (s: string)
    requires Encodable(r)
    ensures 0 < |s|
  {
    var low := Decimal.NatToString(r.start + 1);
    if r.start == r.end then low else low + "-" + Decimal.NatToString(r.end + 1)
  }

  /** One segment per range, in input order. */
  function Segments(rs: seq<PageRange>): (ss: seq<string>)
    requires AllEncodable(rs)
    ensures |ss| == |rs|
    ensures forall i :: 0 <= i < |rs| ==> ss[i] == Segment(rs[i])
  {
    if |rs| == 0 then [] else [Segment(rs[0])] + Segments(rs[1..])
  }

  /** Strings joined by single commas, with no leading or trailing comma. */
  function Join(ss: seq<string>): string {
    if |ss| == 0 then ""
    else if |ss| == 1 then ss[0]
    else ss[0] + "," + Join(ss[1..])
  }

  lemma {:induction false} JoinSnoc(ss: seq<string>, s: string)
    requires 0 < |ss|
    ensures Join(ss + [s]) == Join(ss) + "," + s
    decreases |ss|
  {
    if |ss| == 1 {
      assert (ss + [s])[1..] == [s];
    } else {
      assert (ss + [s])[1..] == ss[1..] + [s];
      JoinSnoc(ss[1..], s);
    }
  }

  lemma JoinNonEmpty(ss: seq<string>)
    requires 0 < |ss| && 0 < |ss[0]|
    ensures 0 < |Join(ss)|
  {
  }

  lemma SegmentsSnoc(rs: seq<PageRange>, i: nat)
    requires AllEncodable(rs) && i < |rs|
    ensures Segments(rs[..i + 1]) == Segments(rs[..i]) + [Segment(rs[i])]
  {
    var a := Segments(rs[..i + 1]);
    var b := Segments(rs[..i]) + [Segment(rs[i])];
    assert |a| == |b|;
    forall k | 0 <= k < |a|
      ensures a[k] == b[k]
    {
      assert rs[..i + 1][k] == rs[k];
      if k < i {
        assert rs[..i][k] == rs[k];
      }
    }
  }

  /** One pass of the loop: appending the separator and the next segment to
      the joined segments of a prefix gives the joined segments of the prefix
      one longer. */
  lemma AppendStep(rs: seq<PageRange>, i: nat, builder: string)
    requires AllEncodable(rs) && i < |rs|
    requires builder == Join(Segments(rs[..i]))
    ensures (if |builder| > 0 then builder + "," else builder) + JavaSegment(rs[i])
         == Join(Segments(rs[..i + 1]))
  {
    var segs := Segments(rs[..i]);
    SegmentsSnoc(rs, i);
    if i == 0 {
      assert segs == [];
    } else {
      JoinNonEmpty(segs);
      JoinSnoc(segs, Segment(rs[i]));
    }
  }

  /** The loop keeps `builder` equal to the joined segments of the ranges seen
      so far, so the finished string joins all of them. */
  lemma {:induction false} AppendRangesJoins(rs: seq<PageRange>, i: nat, builder: string)
    requires AllEncodable(rs) && i <= |rs|
    requires builder == Join(Segments(rs[..i]))
    ensures AppendRanges(rs, i, builder) == Some(Join(Segments(rs)))
    decreases |rs| - i
  {
    if i == |rs| {
      assert rs[..i] == rs;
    } else {
      assert rs[i] != AllPages;
      var next := (if |builder| > 0 then builder + "," else builder) + JavaSegment(rs[i]);
      AppendStep(rs, i, builder);
      AppendRangesJoins(rs, i + 1, next);
    }
  }

  lemma EncodableRangesJoin(rs: seq<PageRange>)
    requires AllValid(rs)
    ensures AllEncodable(rs) ==> AppendRanges(rs, 0, "") == Some(Join(Segments(rs)))
  {
    if AllEncodable(rs) {
      assert rs[..0] == [];
      AppendRangesJoins(rs, 0, "");
    }
  }

  /** Index of the first `c` in `s`, or `|s|` when there is none. */
  function IndexOf(s: string, c: char): (i: nat)
    ensures i <= |s|
    ensures i < |s| ==> s[i] == c
  {
    if |s| == 0 then 0 else if s[0] == c then 0 else IndexOf(s[1..], c) + 1
  }

  /** The pieces of `s` between occurrences of `c`; always at least one. */
  function SplitOn(s: string, c: char): (parts: seq<string>)
    ensures 0 < |parts|
    decreases |s|
  {
    var i := IndexOf(s, c);
    if i == |s| then [s] else [s[..i]] + SplitOn(s[i + 1..], c)
  }

  /** A page number: a non-empty run of digits. */
  function Number(s: string): Option<nat> {
    if 0 < |s| && Decimal.AllDigits(s) then Some(Decimal.ParseNat(s)) else None
  }

  /** One comma-separated piece: `n` or `lo-hi`, one-based, `lo <= hi`. */
  function DecodeSegment(s: string): Option<PageRange> {
    var parts := SplitOn(s, '-');
    if |parts| == 1 then
      match Number(parts[0])
      case Some(n) => if 1 <= n then Some(PageRange(n - 1, n - 1)) else None
      case None => None
    else if |parts| == 2 then
      match (Number(parts[0]), Number(parts[1]))
      case (Some(low), Some(high)) =>
        if 1 <= low <= high then Some(PageRange(low - 1, high - 1)) else None
      case _ => None
    else None
  }

  function DecodeSegments(parts: seq<string>): (r: Option<seq<PageRange>>)
    ensures r.Some? ==> |r.value| == |parts|
  {
    if |parts| == 0 then Some([])
    else
      match (DecodeSegment(parts[0]), DecodeSegments(parts[1..]))
      case (Some(r), Some(rs)) => Some([r] + rs)
      case _ => None
  }

  /** Inverse of the encoding, as a downstream consumer would read the string:
      comma-separated segments, each a page number or a span. */
  function Decode(s: string): Option<seq<PageRange>> {
    DecodeSegments(SplitOn(s, ','))
  }

  lemma {:induction false} IndexOfAbsent(s: string, c: char)
    requires c !in s
    ensures IndexOf(s, c) == |s|
    decreases |s|
  {
    if |s| > 0 {
      assert s[0] in s;
      assert forall x :: x in s[1..] ==> x in s;
      IndexOfAbsent(s[1..], c);
    }
  }

  lemma {:induction false} IndexOfAfter(x: string, c: char, y: string)
    requires c !in x
    ensures IndexOf(x + [c] + y, c) == |x|
    decreases |x|
  {
    var s := x + [c] + y;
    if |x| > 0 {
      assert x[0] in x;
      assert s[1..] == x[1..] + [c] + y;
      assert forall e :: e in x[1..] ==> e in x;
      IndexOfAfter(x[1..], c, y);
    }
  }

  lemma SplitOnAbsent(s: string, c: char)
    requires c !in s
    ensures SplitOn(s, c) == [s]
  {
    IndexOfAbsent(s, c);
  }

  lemma SplitOnAfter(x: string, c: char, y: string)
    requires c !in x
    ensures SplitOn(x + [c] + y, c) == [x] + SplitOn(y, c)
  {
    var s := x + [c] + y;
    IndexOfAfter(x, c, y);
    assert s[..|x|] == x;
    assert s[|x| + 1..] == y;
  }

  /** Splitting the comma-joined list of comma-free strings gives back the list. */
  lemma {:induction false} SplitJoin(ss: seq<string>)
    requires 0 < |ss|
    requires forall k :: 0 <= k < |ss| ==> ',' !in ss[k]
    ensures SplitOn(Join(ss), ',') == ss
    decreases |ss|
  {
    if |ss| == 1 {
      SplitOnAbsent(ss[0], ',');
    } else {
      SplitOnAfter(ss[0], ',', Join(ss[1..]));
      assert ss[0] + "," + Join(ss[1..]) == ss[0] + [','] + Join(ss[1..]);
      SplitJoin(ss[1..]);
      assert [ss[0]] + ss[1..] == ss;
    }
  }

  lemma DigitsLackPunctuation(d: string, c: char)
    requires Decimal.AllDigits(d)
    requires !Decimal.IsDigit(c)
    ensures c !in d
  {
  }

  lemma NumberOfPrinted(n: nat)
    ensures Number(Decimal.NatToString(n)) == Some(n)
  {
    Decimal.ParseNatToString(n);
  }

  lemma SegmentLacksComma(r: PageRange)
    requires Encodable(r)
    ensures ',' !in Segment(r)
  {
    var low := Decimal.NatToString(r.start + 1);
    DigitsLackPunctuation(low, ',');
    if r.start != r.end {
      var high := Decimal.NatToString(r.end + 1);
      DigitsLackPunctuation(high, ',');
      assert Segment(r) == low + "-" + high;
    }
  }

  /** Each segment decodes to the range it was printed from. */
  lemma DecodeSegmentOfSegment(r: PageRange)
    requires Encodable(r)
    ensures DecodeSegment(Segment(r)) == Some(r)
  {
    var low := Decimal.NatToString(r.start + 1);
    DigitsLackPunctuation(low, '-');
    NumberOfPrinted(r.start + 1);
    if r.start == r.end {
      SplitOnAbsent(low, '-');
    } else {
      var high := Decimal.NatToString(r.end + 1);
      DigitsLackPunctuation(high, '-');
      NumberOfPrinted(r.end + 1);
      assert Segment(r) == low + ['-'] + high;
      SplitOnAfter(low, '-', high);
      SplitOnAbsent(high, '-');
    }
  }

  lemma {:induction false} DecodeSegmentsOfSegments(rs: seq<PageRange>)
    requires AllEncodable(rs)
    ensures DecodeSegments(Segments(rs)) == Some(rs)
    decreases |rs|
  {
    if |rs| > 0 {
      var ss := Segments(rs);
      assert ss[1..] == Segments(rs[1..]);
      DecodeSegmentOfSegment(rs[0]);
      DecodeSegmentsOfSegments(rs[1..]);
      assert [rs[0]] + rs[1..] == rs;
    }
  }

  /** Round trip: the joined segments of any non-empty list of encodable
      ranges decode to exactly that list. */
  lemma DecodeJoinSegments(rs: seq<PageRange>)
    requires 0 < |rs| && AllEncodable(rs)
    ensures Decode(Join(Segments(rs))) == Some(rs)
  {
    var ss := Segments(rs);
    forall k | 0 <= k < |ss|
      ensures ',' !in ss[k]
    {
      SegmentLacksComma(rs[k]);
    }
    SplitJoin(ss);
    DecodeSegmentsOfSegments(rs);
  }

  /** Whenever the encoder produces a string for encodable ranges, that string
      decodes back to the ranges it was given. */
  lemma EncodeDecode(rs: seq<PageRange>)
    requires AllEncodable(rs)
    ensures AllValid(rs)
    ensures GetPageRangeString(Some(rs)).Some? ==> Decode(GetPageRangeString(Some(rs)).value) == Some(rs)
  {
    if GetPageRangeString(Some(rs)).Some? {
      DecodeJoinSegments(rs);
    }
  }

  /** Distinct lists of encodable ranges never share an encoding: the string
      loses neither the ranges nor their order. */
  lemma EncodingInjective(a: seq<PageRange>, b: seq<PageRange>)
    requires AllEncodable(a) && AllEncodable(b)
    requires GetPageRangeString(Some(a)).Some?
    requires GetPageRangeString(Some(a)) == GetPageRangeString(Some(b))
    ensures a == b
  {
    EncodeDecode(a);
    EncodeDecode(b);
  }

  /** Sample encodings: one page, one span, a page then a span; no string
      for an empty list or for all pages. */
  lemma EncodingExamples()
    ensures GetPageRangeString(Some([PageRange(0, 0)])) == Some("1")
    ensures GetPageRangeString(Some([PageRange(0, 4)])) == Some("1-5")
    ensures GetPageRangeString(Some([PageRange(0, 0), PageRange(2, 4)])) == Some("1,3-5")
    ensures GetPageRangeString(Some([])) == None
    ensures GetPageRangeString(Some([AllPages])) == None
  {
    assert Decimal.NatToString(1) == "1";
    assert Decimal.NatToString(3) == "3";
    assert Decimal.NatToString(5) == "5";
    var one, span, later := PageRange(0, 0), PageRange(0, 4), PageRange(2, 4);
    assert Segment(one) == "1";
    assert Segment(span) == "1-5";
    assert Segment(later) == "3-5";
    assert Segments([one]) == ["1"];
    assert Segments([span]) == ["1-5"];
    var both := [one, later];
    assert AllEncodable(both);
    var ss := Segments(both);
    assert ss[0] == "1" && ss[1] == "3-5";
    assert ss == ["1", "3-5"];
    assert Join(ss) == "1" + "," + "3-5" == "1,3-5";
    assert AllPages in [AllPages];
  }

  lemma OverflowLeavesTrailingComma()
    ensures GetPageRangeString(Some([PageRange(0, 0), PageRange(1, IntMax)])) == Some("1,")
  {
    var rs := [PageRange(0, 0), PageRange(1, IntMax)];
    assert AllPages !in rs;
    assert JavaSegment(rs[0]) == "1" by {
      assert Decimal.NatToString(1) == "1";
    }
    assert "1" + "," + "" == "1,";
    assert AppendRanges(rs, 2, "1,") == Some("1,");
    assert AppendRanges(rs, 1, "1") == AppendRanges(rs, 2, "1" + "," + JavaSegment(rs[1]));
    assert "" + JavaSegment(rs[0]) == "1";
    assert AppendRanges(rs, 0, "") == AppendRanges(rs, 1, "" + JavaSegment(rs[0]));
  }

  /** The single page `Integer.MAX_VALUE` wraps both bounds and is printed as
      a negative number. */
  lemma OverflowSinglePage()
    ensures JavaSegment(PageRange(IntMax, IntMax)) == "-2147483648"
  {
    assert JavaSegment(PageRange(IntMax, IntMax)) == "-" + Decimal.NatToString(0x8000_0000);
    MinValueDigits();
  }

  /** The digits of 2^31, the magnitude of `Integer.MIN_VALUE`, one
      unfolding of `NatToString` at a time. */
  lemma MinValueDigits()
    ensures Decimal.NatToString(2147483648) == "2147483648"
  {
    assert Decimal.NatToString(21) == "2" + "1";
    assert Decimal.NatToString(214) == "21" + "4";
    assert Decimal.NatToString(2147) == "214" + "7";
    assert Decimal.NatToString(21474) == "2147" + "4";
    assert Decimal.NatToString(214748) == "21474" + "8";
    assert Decimal.NatToString(2147483) == "214748" + "3";
    assert Decimal.NatToString(21474836) == "2147483" + "6";
    assert Decimal.NatToString(214748364) == "21474836" + "4";
    assert Decimal.NatToString(2147483648) == "214748364" + "8";
  }

}

=== FILE: staging.dfy ===
/** What the activity does with an incoming document before printing:
    resolve its MIME type, choose and sanitize a file name, copy the content
    into a working file under the app's private `tmp` directory, count its
    pages and hand it to the print framework (`processAction`,
    `convertToFile`, `saveWorkFile`, `getPdfPageCount`, `printDocument`). */
module Staging {
  import opened Wrappers
  import opened JavaLang
  import opened Streams
  import opened Files

  /** The scheme `ContentResolver.SCHEME_CONTENT`. */
  const ContentScheme: string := "content"

  /** Name of the working directory under the app's files directory. */
  const TempDir: string := "tmp"

  /** The parts of an `android.net.Uri` the activity reads. */
  datatype Uri = Uri(scheme: Option<string>, lastPathSegment: Option<string>)

  /** What `PdfRenderer` makes of a file's bytes: a page count, or the
      `IOException` (not a PDF) or `SecurityException` (password protected)
      its constructor throws. */
  datatype PdfVerdict = Pages(count: nat) | NotPdf | Protected

  /** The platform's answers during one run. `MimeTypeMap`, the content
      resolver, `PdfRenderer` and the build version are library code outside
      this model; they appear here as given functions and values. */
  datatype Platform = Platform(
    filesDir: Path,                               // getFilesDir()
    resolvedType: Option<string>,                 // getIntent().resolveType(this)
    contentUri: Option<Uri>,                      // getContentUri()
    extensionFromUrl: string -> string,           // MimeTypeMap.getFileExtensionFromUrl
    mimeFromExtension: string -> Option<string>,  // MimeTypeMap.getMimeTypeFromExtension
    displayName: Option<string>,                  // getContentName(uri)
    content: Result<Source, IoError>,             // ContentResolver.openInputStream(uri)
    workSink: Sink,                               // the FileOutputStream on the work file
    renderer: seq<Byte> -> PdfVerdict,            // new PdfRenderer(descriptor)
    descriptorCloseError: bool,                   // ParcelFileDescriptor.close throws
    lollipop: bool                                // SDK_INT >= LOLLIPOP
  )

  /** `MimeTypeMap.getFileExtensionFromUrl`, which answers "" for null. */
  function ExtensionOf(platform: Platform, name: Option<string>): string {
    if name.Some? then platform.extensionFromUrl(name.value) else ""
  }

  /** The `tmp` directory the working copy lives in. */
  function WorkDir(filesDir: Path): (d: Path)
    ensures Parent(d) == filesDir && Name(d) == TempDir
  {
    ChildParts(filesDir, TempDir);
    Child(filesDir, TempDir)
  }

  /** Name and extension `convertToFile` settles on: the URI's last path
      segment, replaced by the content display name only when that segment
      has no extension and the scheme is `content`. */
  function ChooseName(platform: Platform, uri: Uri): (r: (Option<string>, string))
    ensures r.1 == ExtensionOf(platform, r.0)
    ensures 0 < |ExtensionOf(platform, uri.lastPathSegment)| ==> r.0 == uri.lastPathSegment
    ensures uri.scheme != Some(ContentScheme) ==> r.0 == uri.lastPathSegment
    ensures r.0 != uri.lastPathSegment ==> r.0 == platform.displayName
    ensures |ExtensionOf(platform, uri.lastPathSegment)| == 0 && uri.scheme == Some(ContentScheme) ==>
              r.0 == platform.displayName
  {
    var segment := uri.lastPathSegment;
    var extension := ExtensionOf(platform, segment);
    if |extension| == 0 then
      var name := if uri.scheme == Some(ContentScheme) then platform.displayName else segment;
      (name, ExtensionOf(platform, name))
    else (segment, extension)
  }

  /** Result of `convertToFile`: the work file (None when a null name
      reaches `replace` and the call throws), the extension it recorded, the
      MIME type after its fallback, and the file system after `mkdir`. */
  datatype Conversion = Conversion(workFile: Option<Path>, extension: string, mime: Option<string>, fs: FileSystem)

  /** `convertToFile`. */
  function ConvertToFile(platform: Platform, uri: Uri, mime: Option<string>, fs: FileSystem): (c: Conversion)
    ensures c.fs.files == fs.files
    ensures forall q :: q != WorkDir(platform.filesDir) ==> (q in c.fs.dirs <==> q in fs.dirs)
    ensures WorkDir(platform.filesDir) in c.fs.dirs <==>
              WorkDir(platform.filesDir) in fs.dirs || (!Exists(fs, WorkDir(platform.filesDir)) && platform.filesDir in fs.dirs)
    ensures c.workFile.None? <==> ChooseName(platform, uri).0.None?
    ensures c.workFile.Some? ==>
              c.workFile.value == Child(WorkDir(platform.filesDir), Sanitize(ChooseName(platform, uri).0.value))
    ensures c.extension == ChooseName(platform, uri).1
    ensures !IsEmpty(mime) ==> c.mime == mime
    ensures IsEmpty(mime) ==> c.mime == platform.mimeFromExtension(c.extension)
  {
    var (name, extension) := ChooseName(platform, uri);
    var mime' := if IsEmpty(mime) then platform.mimeFromExtension(extension) else mime;
    var workDir := WorkDir(platform.filesDir);
    var fs' := if !Exists(fs, workDir) then Mkdir(fs, workDir) else fs;
    if name.None? then Conversion(None, extension, mime', fs')
    else Conversion(Some(Child(workDir, Sanitize(name.value))), extension, mime', fs')
  }

  /** Where the staged file lands: directly inside `getFilesDir()/tmp`, under
      the chosen name with every separator turned into `_`; an empty name
      leaves the directory itself as the work file. */
  lemma WorkFileLocation(platform: Platform, uri: Uri, mime: Option<string>, fs: FileSystem)
    requires ConvertToFile(platform, uri, mime, fs).workFile.Some?
    ensures var p := ConvertToFile(platform, uri, mime, fs).workFile.value;
            var name := ChooseName(platform, uri).0.value;
            && (0 < |name| ==> Parent(p) == WorkDir(platform.filesDir) && Name(p) == Sanitize(name))
            && (|name| == 0 ==> p == WorkDir(platform.filesDir))
            && Separator !in Name(p)
            && 0 < |Name(p)|
  {
    var p := ConvertToFile(platform, uri, mime, fs).workFile.value;
    var name := ChooseName(platform, uri).0.value;
    var dir := WorkDir(platform.filesDir);
    if 0 < |name| {
      ChildParts(dir, Sanitize(name));
    } else {
      assert Name(p) == TempDir;
    }
  }

  /** The MIME precedence of `processAction` once the resolved type is not
      null: a non-empty resolved type wins; otherwise the type of the
      recorded extension; if that is null or empty too, the type of the
      work file's own extension. */
  function ResolveMime(platform: Platform, resolved: string, extension: string, workName: string): (m: Option<string>)
    ensures 0 < |resolved| ==> m == Some(resolved)
    ensures |resolved| == 0 && !IsEmpty(platform.mimeFromExtension(extension)) ==> m == platform.mimeFromExtension(extension)
    ensures |resolved| == 0 && IsEmpty(platform.mimeFromExtension(extension)) ==>
              m == platform.mimeFromExtension(platform.extensionFromUrl(workName))
  {
    var afterConvert := if |resolved| == 0 then platform.mimeFromExtension(extension) else Some(resolved);
    if IsEmpty(afterConvert) then platform.mimeFromExtension(platform.extensionFromUrl(workName)) else afterConvert
  }

  /** Result of `saveWorkFile`: the file system afterwards and the
      `IOException` it caught, if any. */
  datatype Saved = Saved(fs: FileSystem, failure: Option<IoError>)

  /** `saveWorkFile`: delete any previous file, open the content stream and
      a fresh output on the work file, and copy. */
  function SaveWorkFile(platform: Platform, fs: FileSystem, workFile: Path): (s: Saved)
    requires platform.content.Success? ==> FitsBuffer(platform.content.value.script)
    ensures forall q :: q != workFile ==> (q in s.fs.files <==> q in fs.files) && (q in s.fs.files ==> s.fs.files[q] == fs.files[q])
    ensures forall q :: q != workFile ==> (q in s.fs.dirs <==> q in fs.dirs)
    ensures platform.content.Failure? ==> workFile !in s.fs.files && s.failure == Some(platform.content.error)
    ensures s.failure.None? ==> workFile in s.fs.files && s.fs.files[workFile] == Drained(platform.content.value.script)
    ensures workFile in s.fs.files ==> platform.content.Success? && s.fs.files[workFile] <= Drained(platform.content.value.script)
  {
    var cleaned := if Exists(fs, workFile) then Delete(fs, workFile) else fs;
    match platform.content
    case Failure(e) => Saved(cleaned, Some(e))
    case Success(source) =>
      match OpenOutput(cleaned, workFile)
      case Failure(e) => Saved(cleaned, Some(e))
      case Success(created) =>
        var copy := Copy(source, platform.workSink);
        Saved(Store(created, workFile, copy.written), copy.failure)
  }

  /** `getPdfPageCount`: the renderer's count, or 0 when opening the file,
      building the renderer or closing the descriptor throws. */
  function GetPdfPageCount(platform: Platform, fs: FileSystem, pdf: Path): (n: int)
    ensures 0 <= n
    ensures pdf !in fs.files ==> n == 0
    ensures pdf in fs.files && platform.renderer(fs.files[pdf]).Pages? && !platform.descriptorCloseError ==>
              n == platform.renderer(fs.files[pdf]).count
    ensures pdf in fs.files && !platform.renderer(fs.files[pdf]).Pages? ==> n == 0
    ensures platform.descriptorCloseError ==> n == 0
  {
    if pdf !in fs.files then 0
    else match platform.renderer(fs.files[pdf])
      case Pages(count) => if platform.descriptorCloseError then 0 else count
      case NotPdf => 0
      case Protected => 0
  }

  /** Outcome of `printDocument`. */
  datatype PrintStep = StartPrint(totalPages: int) | RefusePrint

  /** `printDocument`: before Lollipop the page count stays at its initial 0;
      a negative count would refuse to print. */
  function PrintDocument(platform: Platform, fs: FileSystem, workFile: Path): (r: PrintStep)
    ensures r.StartPrint? ==> 0 <= r.totalPages
    ensures !platform.lollipop ==> r == StartPrint(0)
  {
    var total := if platform.lollipop then GetPdfPageCount(platform, fs, workFile) else 0;
    if total >= 0 then StartPrint(total) else RefusePrint
  }

  /** The refusing branch of `printDocument` is dead: the page count is never
      negative, so printing always starts. */
  lemma PrintDocumentAlwaysPrints(platform: Platform, fs: FileSystem, workFile: Path)
    ensures PrintDocument(platform, fs, workFile).StartPrint?
    ensures platform.lollipop ==> PrintDocument(platform, fs, workFile).totalPages == GetPdfPageCount(platform, fs, workFile)
  {
  }

  /** What the activity hands to the print adapter. */
  datatype Job = Job(workFile: Path, jobName: string, mime: Option<string>, totalPages: int)

  /** Why `processAction` stopped. `finishError` shows a message and ends
      the activity. */
  datatype ErrorMessage = UnsupportedDocumentType | DocumentReadingError

  datatype Outcome =
    | Finished(message: ErrorMessage)   // finishError, then return
    | NameCrash                         // NullPointerException at the `replace` call
    | Refused                           // printDocument's finishError branch
    | Printing(job: Job, saveFailure: Option<IoError>)  // print() reached; a save failure also called finishError

  datatype Run = Run(outcome: Outcome, fs: FileSystem)

  /** `processAction`. */
  function ProcessAction(platform: Platform, fs: FileSystem): (r: Run)
    requires platform.content.Success? ==> FitsBuffer(platform.content.value.script)
    ensures platform.resolvedType.None? ==> r == Run(Finished(UnsupportedDocumentType), fs)
    ensures platform.resolvedType.Some? && platform.contentUri.None? ==> r == Run(Finished(DocumentReadingError), fs)
    ensures r.outcome.Printing? ==> platform.resolvedType.Some? && platform.contentUri.Some?
    ensures r.outcome.Printing? ==>
              ConvertToFile(platform, platform.contentUri.value, platform.resolvedType, fs).workFile == Some(r.outcome.job.workFile)
    ensures r.outcome.Printing? ==> r.outcome.job.jobName == Name(r.outcome.job.workFile)
    ensures r.outcome.Printing? ==> 0 <= r.outcome.job.totalPages
    ensures r.outcome.Printing? && r.outcome.saveFailure.None? ==>
              && platform.content.Success?
              && r.outcome.job.workFile in r.fs.files
              && r.fs.files[r.outcome.job.workFile] == Drained(platform.content.value.script)
  {
    match platform.resolvedType
    case None => Run(Finished(UnsupportedDocumentType), fs)
    case Some(resolved) =>
      match platform.contentUri
      case None => Run(Finished(DocumentReadingError), fs)
      case Some(uri) =>
        var conversion := ConvertToFile(platform, uri, Some(resolved), fs);
        match conversion.workFile
        case None => Run(NameCrash, conversion.fs)
        case Some(workFile) =>
          var mime := if IsEmpty(conversion.mime)
                      then platform.mimeFromExtension(platform.extensionFromUrl(Name(workFile)))
                      else conversion.mime;
          var saved := SaveWorkFile(platform, conversion.fs, workFile);
          var job := Job(workFile, Name(workFile), mime, 0);
          match PrintDocument(platform, saved.fs, workFile)
          case RefusePrint => Run(Refused, saved.fs)
          case StartPrint(total) => Run(Printing(job.(totalPages := total), saved.failure), saved.fs)
  }

  /** Which way `processAction` goes: once the type and the URI are known,
      a missing name crashes and any other case reaches `print()`, even
      when saving the work file failed; that failure is carried along. */
  lemma ProcessActionOutcomes(platform: Platform, fs: FileSystem)
    requires platform.content.Success? ==> FitsBuffer(platform.content.value.script)
    requires platform.resolvedType.Some? && platform.contentUri.Some?
    ensures var r := ProcessAction(platform, fs);
            && (r.outcome == NameCrash <==> ChooseName(platform, platform.contentUri.value).0.None?)
            && (r.outcome.Printing? <==> ChooseName(platform, platform.contentUri.value).0.Some?)
    ensures var r := ProcessAction(platform, fs);
            r.outcome.Printing? && platform.content.Failure? ==> r.outcome.saveFailure == Some(platform.content.error)
  {
    var uri := platform.contentUri.value;
    var conversion := ConvertToFile(platform, uri, platform.resolvedType, fs);
    if conversion.workFile.Some? {
      PrintDocumentAlwaysPrints(platform, SaveWorkFile(platform, conversion.fs, conversion.workFile.value).fs, conversion.workFile.value);
    }
  }

  /** The MIME type handed to the print service follows the precedence of
      `ResolveMime`: resolved type, then the recorded extension's type, then
      the type of the work file's own extension. */
  lemma ProcessActionMime(platform: Platform, fs: FileSystem)
    requires platform.content.Success? ==> FitsBuffer(platform.content.value.script)
    requires platform.resolvedType.Some? && platform.contentUri.Some?
    requires ChooseName(platform, platform.contentUri.value).0.Some?
    ensures var r := ProcessAction(platform, fs);
            var uri := platform.contentUri.value;
            && r.outcome.Printing?
            && r.outcome.job.mime == ResolveMime(platform, platform.resolvedType.value, ChooseName(platform, uri).1, r.outcome.job.jobName)
  {
    ProcessActionOutcomes(platform, fs);
  }
}

=== FILE: streams.dfy ===
/** `copyStream`: the loop that moves bytes from an input stream to an output
    stream through a 2048-byte buffer, then flushes and closes both. The input
    is a script of what successive `read(buffer)` calls return; the output is
    a sink that may throw on a given write, on flush or on close. */
module Streams {
  import opened Wrappers
  import opened JavaLang

  /** Size of the buffer `copyStream` allocates. */
  const BufferSize: nat := 2048

  /** An input stream: what its successive reads return, and whether its
      `close` throws. */
  datatype Source = Source(script: seq<ReadResult>, closeError: Option<IoError>)

  /** One call of `InputStream.read(buffer)`: the bytes it delivered (none
      stands for a return value of 0 or -1), or the exception it threw. Reads
      beyond the end of a script return -1. */
  datatype ReadResult = Bytes(data: seq<Byte>) | ReadError(error: IoError)

  /** `read(buffer)` never delivers more than the buffer holds. */
  predicate FitsBuffer(script: seq<ReadResult>) {
    forall i :: 0 <= i < |script| ==> script[i].Bytes? ==> |script[i].data| <= BufferSize
  }

  /** A read the loop accepts: it returned a positive count. */
  predicate Delivers(r: ReadResult) {
    r.Bytes? && 0 < |r.data|
  }

  function DataOf(r: ReadResult): seq<Byte> {
    if r.Bytes? then r.data else []
  }

  /** The `index`-th call of `write` (counting from 0) throws `error`. */
  datatype WriteFault = WriteFault(index: nat, error: IoError)

  /** An output stream, described by the calls on which it throws. */
  datatype Sink = Sink(writeFault: Option<WriteFault>, flushError: Option<IoError>, closeError: Option<IoError>)

  /** A sink that accepts everything. */
  const ReliableSink: Sink := Sink(None, None, None)

  predicate FailsAtWrite(sink: Sink, i: nat) {
    sink.writeFault.Some? && sink.writeFault.value.index == i
  }

  /** A call made on one of the two streams, in the order made; the call that
      threw, if any, is the last one listed. */
  datatype IoEvent = Write(length: nat) | Flush | CloseOutput | CloseInput

  /** What a run of `copyStream` leaves behind: the bytes that reached the
      output, the calls made, and the exception it ended with, if any. */
  datatype CopyResult = CopyResult(written: seq<Byte>, events: seq<IoEvent>, failure: Option<IoError>)

  /** Number of reads the loop accepts before the first read that returns
      a count of zero or less or throws. */
  function EndOfStream(script: seq<ReadResult>): (k: nat)
    ensures k <= |script|
    ensures forall i :: 0 <= i < k ==> Delivers(script[i])
    ensures k < |script| ==> !Delivers(script[k])
  {
    if |script| == 0 || !Delivers(script[0]) then 0
    else
      var k := EndOfStream(script[1..]);
      assert forall i :: 1 <= i < k + 1 ==> script[i] == script[1..][i - 1];
      k + 1
  }

  /** Concatenation of what the first `n` reads delivered. */
  function Payload(script: seq<ReadResult>, n: nat): seq<Byte>
    requires n <= |script|
  {
    if n == 0 then [] else Payload(script, n - 1) + DataOf(script[n - 1])
  }

  /** The writes issued for the first `n` reads, one per read. */
  function WriteLog(script: seq<ReadResult>, n: nat): (log: seq<IoEvent>)
    requires n <= |script|
    ensures |log| == n
    ensures forall i :: 0 <= i < n ==> log[i] == Write(|DataOf(script[i])|)
  {
    if n == 0 then [] else WriteLog(script, n - 1) + [Write(|DataOf(script[n - 1])|)]
  }

  /** Everything the stream delivers up to the read that ends the loop. */
  function Drained(script: seq<ReadResult>): seq<Byte> {
    Payload(script, EndOfStream(script))
  }

  /** Some write before the end of the stream throws. */
  predicate WriteFails(source: Source, sink: Sink) {
    sink.writeFault.Some? && sink.writeFault.value.index < EndOfStream(source.script)
  }

  /** The read that ends the loop throws. */
  predicate ReadFails(source: Source) {
    EndOfStream(source.script) < |source.script| && source.script[EndOfStream(source.script)].ReadError?
  }

  /** Reference description of one `copyStream` run, decided by where it
      stops: at a write that throws, at a read that throws, at `flush`, at
      `close` of the output, at `close` of the input, or after all of them. */
  function Copy(source: Source, sink: Sink): (r: CopyResult)
    requires FitsBuffer(source.script)
    ensures r.failure.None? <==>
              !WriteFails(source, sink) && !ReadFails(source) &&
              sink.flushError.None? && sink.closeError.None? && source.closeError.None?
    ensures !WriteFails(source, sink) ==> r.written == Drained(source.script)
    ensures r.written <= Drained(source.script)
  {
    var script := source.script;
    var end := EndOfStream(script);
    var log := WriteLog(script, end);
    var all := Payload(script, end);
    if sink.writeFault.Some? && sink.writeFault.value.index < end then
      var j := sink.writeFault.value.index;
      PayloadMonotone(script, j, end);
      CopyResult(Payload(script, j), WriteLog(script, j) + [Write(|DataOf(script[j])|)], Some(sink.writeFault.value.error))
    else if end < |script| && script[end].ReadError? then
      CopyResult(all, log, Some(script[end].error))
    else if sink.flushError.Some? then
      CopyResult(all, log + [Flush], sink.flushError)
    else if sink.closeError.Some? then
      CopyResult(all, log + [Flush, CloseOutput], sink.closeError)
    else
      CopyResult(all, log + [Flush, CloseOutput, CloseInput], source.closeError)
  }

  /** Every write `copyStream` issues carries between 1 and 2048 bytes. */
  lemma CopyWritesFit(source: Source, sink: Sink)
    requires FitsBuffer(source.script)
    ensures var r := Copy(source, sink);
            forall k :: 0 <= k < |r.events| && r.events[k].Write? ==> 0 < r.events[k].length <= BufferSize
  {
    var script := source.script;
    var end := EndOfStream(script);
    assert forall k :: 0 <= k < end ==> 0 < |DataOf(script[k])| <= BufferSize;
  }

  /** The order of closing: the input is closed only after every write, the
      flush and the close of the output, and a run without an exception
      has closed both streams. An output that was closed received the whole
      stream. */
  lemma CopyClosesInOrder(source: Source, sink: Sink)
    requires FitsBuffer(source.script)
    ensures var r := Copy(source, sink);
            CloseInput in r.events ==>
              r.events == WriteLog(source.script, EndOfStream(source.script)) + [Flush, CloseOutput, CloseInput]
    ensures var r := Copy(source, sink);
            r.failure.None? ==> CloseOutput in r.events && CloseInput in r.events
    ensures var r := Copy(source, sink);
            CloseOutput in r.events ==> !WriteFails(source, sink) && r.written == Drained(source.script)
  {
    var r := Copy(source, sink);
    var script := source.script;
    var end := EndOfStream(script);
    var log := WriteLog(script, end);
    if WriteFails(source, sink) {
      assert forall k :: 0 <= k < |r.events| ==> r.events[k].Write?;
    } else if ReadFails(source) || sink.flushError.Some? {
      assert forall k :: 0 <= k < |r.events| ==> r.events[k].Write? || r.events[k] == Flush;
    } else if sink.closeError.Some? {
      assert forall k :: 0 <= k < |r.events| ==> r.events[k] != CloseInput;
      assert r.events[|log| + 1] == CloseOutput;
    } else {
      assert r.events[|log| + 1] == CloseOutput;
    }
  }

  /** A longer run of reads extends the payload of a shorter one. */
  lemma {:induction false} PayloadMonotone(script: seq<ReadResult>, m: nat, n: nat)
    requires m <= n <= |script|
    ensures Payload(script, m) <= Payload(script, n)
    decreases n - m
  {
    if m < n {
      PayloadMonotone(script, m, n - 1);
      assert Payload(script, n - 1) <= Payload(script, n);
    }
  }

  /** `copyStream` as written: read into the buffer while `read` returns a
      positive count, write exactly that many bytes, then flush and close the
      output and close the input. An exception leaves at once and closes
      nothing more. */
  method CopyStream(source: Source, sink: Sink) returns (r: CopyResult)
    requires FitsBuffer(source.script)
    ensures r == Copy(source, sink)
    ensures r.failure.None? ==> r.written == Drained(source.script)
    ensures r.failure.None? ==> r.events[|r.events| - 3..] == [Flush, CloseOutput, CloseInput]
    ensures forall k :: 0 <= k < |r.events| && r.events[k].Write? ==> 0 < r.events[k].length <= BufferSize
  {
    CopyWritesFit(source, sink);
    var script := source.script;
    var written: seq<Byte> := [];
    var events: seq<IoEvent> := [];
    var i := 0;
    while i < |script| && Delivers(script[i])
      invariant i <= |script|
      invariant forall j :: 0 <= j < i ==> Delivers(script[j]) && !FailsAtWrite(sink, j)
      invariant written == Payload(script, i)
      invariant events == WriteLog(script, i)
    {
      var chunk := script[i].data;
      events := events + [Write(|chunk|)];
      if FailsAtWrite(sink, i) {
        assert i < EndOfStream(script);
        return CopyResult(written, events, Some(sink.writeFault.value.error));
      }
      written := written + chunk;
      i := i + 1;
    }
    assert i == EndOfStream(script);
    if i < |script| && script[i].ReadError? {
      return CopyResult(written, events, Some(script[i].error));
    }
    events := events + [Flush];
    if sink.flushError.Some? {
      return CopyResult(written, events, sink.flushError);
    }
    events := events + [CloseOutput];
    if sink.closeError.Some? {
      return CopyResult(written, events, sink.closeError);
    }
    events := events + [CloseInput];
    r := CopyResult(written, events, source.closeError);
  }

  /** How a regular file is read: full buffers, then whatever is left. */
  function ChunksOf(data: seq<Byte>): (script: seq<ReadResult>)
    ensures FitsBuffer(script)
    ensures forall i :: 0 <= i < |script| ==> Delivers(script[i])
    decreases |data|
  {
    if |data| == 0 then []
    else if |data| <= BufferSize then [Bytes(data)]
    else [Bytes(data[..BufferSize])] + ChunksOf(data[BufferSize..])
  }

  lemma {:induction false} PayloadCons(x: ReadResult, rest: seq<ReadResult>, n: nat)
    requires n <= |rest|
    ensures Payload([x] + rest, n + 1) == DataOf(x) + Payload(rest, n)
    decreases n
  {
    var script := [x] + rest;
    if n > 0 {
      PayloadCons(x, rest, n - 1);
      assert script[n] == rest[n - 1];
    }
  }

  /** Reading a file chunk by chunk and concatenating the chunks gives back
      the file. */
  lemma {:induction false} DrainedChunks(data: seq<Byte>)
    ensures EndOfStream(ChunksOf(data)) == |ChunksOf(data)|
    ensures Drained(ChunksOf(data)) == data
    decreases |data|
  {
    var script := ChunksOf(data);
    if |data| == 0 {
    } else if |data| <= BufferSize {
      assert Payload(script, 1) == [] + data;
    } else {
      var rest := ChunksOf(data[BufferSize..]);
      DrainedChunks(data[BufferSize..]);
      PayloadCons(Bytes(data[..BufferSize]), rest, |rest|);
      assert data[..BufferSize] + data[BufferSize..] == data;
    }
  }
}

=== FILE: wrappers.dfy ===
/** `Option` stands for a Java reference that may be null, `Result` for a
    call that either returns a value or throws. */
module Wrappers {

  datatype Option<+T> = None | Some(value: T)

  datatype Result<+R, +E> = Success(value: R) | Failure(error: E)
}
